=== FILE: README.md ===
# EcoMarket backend core in Dafny

A model of the service layer of the EcoMarket shop backend: an ASP.NET Core / MongoDB
API for a catalog of eco-friendly products, with users, orders, reviews and favorites.
The MongoDB database becomes an immutable `Store`. It is one map per collection, keyed
by `_id`. Every operation that writes becomes a pure function from a store to a `Step`:
the answer the service gives, plus the store after it. The paged queries take the
matching documents in the store's order and return the page.

The modules follow the source's structure:

- `Common`: `Option` and `Result`, and .NET's `string.IsNullOrWhiteSpace` (`IsBlank`)
  with the exact set of characters `char.IsWhiteSpace` accepts.
- `OrderStatus`: `Order.StatusValidation`. This is the list of valid statuses, the
  case-insensitive status check, and the case-sensitive transition check.
- `Models`: the documents (`Product`, `User`, `Order`, `OrderItem`, `ShippingAddress`,
  `Review`, `Favorite`) and the `Store`.
- `Stock`: the per-line `$inc` updates that order operations apply to product stock.
- `Orders`: `OrderService.CreateOrder`, `UpdateOrderStatus`, and both `DeleteOrder`s.
- `Conservation`: for every product, stock plus the units held by orders that are not
  cancelled is an invariant of the three checked order operations. The unchecked
  delete breaks it.
- `Pagination`: `PaginationParams.GetValidatedValues`, the skip/limit window and
  `ProductService.CreatePaginatedResponse`.
- `Catalog`: the paged product queries and the two refusals of `SearchProducts`.
- `Reviews`: `ReviewService` create/update/delete and the review count that
  `UpdateProductRating` writes.
- `Favorites`: `FavoriteService` create/delete and delete-by-user-and-product.
- `Auth`: `AuthService.Register` and `Login`.
- `OrderScenarios`: worked examples of the order operations on a one-product catalog.

Where the store would pick "the first document that matches" (`FirstOrDefault`,
`DeleteOne` with a filter), the model picks an unspecified match with `:|`. Those
functions are ghost, and their contracts hold for every choice. Password hashing,
password verification and token issuing are opaque function parameters. The clock is
a `now` parameter. The id MongoDB would generate is a `generated` parameter.

Some behaviours of the code are easy to misread; the model follows the code:

- The transition check allows exactly eight (from, to) pairs. `ExactlyEightTransitions`
  proves this count.
- A status given in another case passes the case-insensitive validity check. It then
  fails the case-sensitive transition check, as `CaseSensitiveTransition` shows.
- `CreateFavorite` looks the product up before the user. A null favorite faults in the
  logging line before the null check is reached.
- `Register` rejects only EMPTY email and password. A whitespace-only value passes.
- The last review deleted for a product leaves its review count unchanged, because
  `UpdateProductRating` writes nothing when no review remains.

## Model

| member | source | states |
|---|---|---|
| OrderStatus.ContainsIgnoreCase | Models/Order.cs:52 | true exactly when some entry of the list equals the string under ordinal case-insensitive comparison |
| OrderStatus.IsValidStatus | Models/Order.cs:40-53 | a status string is valid exactly when it equals the name of one of the six statuses, ignoring case |
| OrderStatus.IsValidStatusTransition | Models/Order.cs:56-68 | nothing leaves Cancelled or Refunded; only Pending may move to Pending; an allowed move names two exactly-spelled statuses |
| OrderStatus.TransitionMatchesTable | Models/Order.cs:56-68 | a move is allowed exactly when both names parse case-sensitively and the target is in the source status's row of the transition table |
| OrderStatus.TransitionPairsAreTable | Models/Order.cs:58-67 | the set of allowed (from, to) status pairs is exactly the eight pairs of the table |
| OrderStatus.ExactlyEightTransitions | Models/Order.cs:58-67 | there are exactly eight allowed transitions |
| OrderStatus.CaseSensitiveTransition | Models/Order.cs:50-67 | "cancelled" passes the status check, but no order can move to it |
| Stock.AdjustStock | Services/OrderService.cs:111-121 | applying one stock increment per order line changes only stock: each product moves by the lines' total for it, and the product set is unchanged |
| Stock.ReleaseUndoesReserve | Services/OrderService.cs:111-162 | restoring an order's lines after taking them gives back the original catalog |
| Orders.CheckItem | Services/OrderService.cs:76-95 | a line is refused exactly when it is not admissible; blank product id, non-positive quantity, unknown product and short stock are checked in that order, each reported exactly when the earlier checks pass and it fails, short stock with the available and requested amounts |
| Orders.ValidateFrom | Services/OrderService.cs:72-98 | the loop succeeds exactly when every line is admissible, yielding the sum of price times quantity; otherwise it reports the first failing line's error |
| Orders.CreateOrder | Services/OrderService.cs:33-130 | null draft, blank user id, unknown user (named), missing address and no items are each reported exactly when the earlier checks pass and it fails; past those checks every refusal is the first failing line's error or a creation failure, the latter exactly when every line passes but the id is taken; any refusal leaves the store untouched; success exactly when all pass and the id is free; the stored order keeps the draft's user, items, address and update time, is Pending with the computed total, dated now; each product's stock drops by its ordered quantity |
| Orders.PlaceOrder | Services/OrderService.cs:72-121 | after the header checks: the first failing line's error, a creation failure exactly when every line passes but the id is taken, otherwise the Pending order with the computed total inserted and one decrement per line applied |
| Orders.UpdateOrderStatus | Services/OrderService.cs:132-178 | invalid status, missing order, non-owner non-admin and disallowed transition (naming both statuses) are each reported exactly when the earlier checks pass and it fails; refusals leave the store untouched; only status and update time are written; cancelling returns the order's units to stock and no other move touches stock |
| Orders.DeleteOrder | Services/OrderService.cs:180-220 | refused for a missing order, a non-owner non-admin, or a non-Pending order; otherwise the order is removed and its units return to stock |
| Orders.DeleteOrderUnchecked | Services/OrderService.cs:222-226 | removes the order if present and reports whether it did; stock and all other collections are untouched |
| Conservation.CreateOrderConserves | Services/OrderService.cs:101-121 | creating an order keeps, for every product, stock plus units held by live orders unchanged |
| Conservation.UpdateOrderStatusConserves | Services/OrderService.cs:150-171 | a status update keeps stock plus held units unchanged, including the cancellation that releases them |
| Conservation.DeleteOrderConserves | Services/OrderService.cs:194-213 | deleting a pending order keeps stock plus held units unchanged |
| Conservation.DeleteOrderUncheckedLosesStock | Services/OrderService.cs:222-226 | the unchecked delete of a live order lowers stock plus held units by exactly that order's holding |
| OrderScenarios.CreateTwoOfFive | Services/OrderService.cs:72-121 | two units at 10.00 from a stock of 5 give a Pending order of 20.00 and leave 3 in stock |
| OrderScenarios.CreateTwoOfOne | Services/OrderService.cs:90-95 | two units from a stock of 1 are refused with the product, available 1 and requested 2; stock stays 1 |
| OrderScenarios.DuplicateLinesOverdraw | Services/OrderService.cs:73-121 | two one-unit lines of one product pass against a stock of 1, and the stock ends at -1 |
| OrderScenarios.ShipAsStrangerAndAsAdmin | Services/OrderService.cs:146-171 | another user may not ship a Processing order; an admin may, and the update time is set |
| OrderScenarios.ShippedNeverBackToPending | Services/OrderService.cs:150-151 | a Shipped order cannot be set back to Pending by anyone, and nothing changes |
| Pagination.GetValidatedValues | Models/PaginatedResponse.cs:35-49 | page number 1 when below 1, kept otherwise; page size 10 when below 1, 50 when above 50, kept otherwise |
| Pagination.ValidatedValuesFixpoint | Models/PaginatedResponse.cs:35-49 | validation leaves a request unchanged exactly when it is in range, and validating twice equals validating once |
| Pagination.Window | Services/ProductService.cs:26-30 | the window holds at most a page of items, is empty past the end, and item i is the matching item at offset (page - 1) * size + i |
| Pagination.PageCount | Services/ProductService.cs:133 | the page count is the least t with count <= t * size |
| Pagination.CreatePaginatedResponse | Services/ProductService.cs:125-137 | echoes items, count, page and size; total pages is the ceiling of count / size; a next page exists exactly when page * size < count; a previous one exactly when page > 1 |
| Pagination.Page | Services/ProductService.cs:19-33 | a list query reports the validated page and size, the total count, and the window at that page |
| Pagination.HasNextPageIffNextWindowNonEmpty | Services/ProductService.cs:26-134 | the next-page flag is true exactly when the following page's window is not empty |
| Pagination.FirstPagesArePrefix | Services/ProductService.cs:26-30 | pages 1..k concatenated are the first min(k * size, count) matching items |
| Pagination.PagesCoverAll | Services/ProductService.cs:26-133 | walking pages 1..total pages returns every matching item once, in order |
| Pagination.HasNextPageAsWritten | Services/ProductService.cs:134 | the flag computed with 32-bit multiplication agrees with the exact flag whenever the product fits in 32 bits |
| Pagination.HasNextPageWrapsAround | Services/ProductService.cs:28-134 | page 42949673 of size 50 passes validation and its skip fits in 32 bits, so over one item the page is empty; yet the 32-bit flag claims a next page while the exact flag says there is none |
| Catalog.Matching | Services/ProductService.cs:69-76 | the store's filter keeps exactly the documents that satisfy it, each with all its occurrences, and never more documents than there are |
| Catalog.GetProducts | Services/ProductService.cs:19-33 | the page of all products in store order, with the total count |
| Catalog.GetProductsByCategory | Services/ProductService.cs:65-79 | the count is the number of products of that category; the page is the window at the validated page over them, so it lists only such products |
| Catalog.GetEcoFriendlyProducts | Services/ProductService.cs:102-116 | the count is the number of eco-friendly products; the page is the window at the validated page over them, so it lists only such products |
| Catalog.SearchProducts | Services/ProductService.cs:40-63 | a search is refused exactly when the query is null or whitespace (the first refusal) or is not a pattern the regular-expression engine accepts; otherwise the count and the page are taken over the products the text match selects, and the page lists only those |
| Reviews.RefreshReviewCount | Services/ReviewService.cs:241-259 | a product with reviews gets its count set to their number; a product with none is left as it was |
| Reviews.CreateReview | Services/ReviewService.cs:60-191 | null review, blank caller id, blank product id, blank comment, unknown user, unknown product, rating outside 1..5, existing review and a taken id are each reported exactly when every earlier check passes and it fails; refusals leave the store untouched; one review inserted under the generated id with the caller's user id, the submitted rating, comment and images, and both timestamps; the product's count becomes its number of reviews |
| Reviews.CreateReviewKeepsUnique | Services/ReviewService.cs:147-162 | creation never gives a user a second review of the same product |
| Reviews.UpdateReview | Services/ReviewService.cs:193-220 | missing review, another user's review, a rating outside 1..5 and an unchanged document are each reported exactly when the earlier checks pass and it fails; otherwise it succeeds, keeping id, user, product and creation time and taking rating, comment and images from the update; on success only that review changes and the product's count is refreshed |
| Reviews.UpdateReviewKeepsUnique | Services/ReviewService.cs:206-208 | an update keeps at most one review per user and product |
| Reviews.DeleteReview | Services/ReviewService.cs:222-239 | only the owner may delete; the review is removed and the product's count refreshed |
| Reviews.DeleteReviewCount | Services/ReviewService.cs:236-258 | after a deletion with reviews left, the count drops by one; after deleting the last review, the product keeps its old count |
| Favorites.CreateFavorite | Services/FavoriteService.cs:33-126 | a null favorite faults, and only it; blank user id, blank product id, unknown product, unknown user, an existing pair and a taken id are each reported exactly when every earlier check passes and it fails; otherwise exactly one favorite is inserted under the client's id or the generated one, with its creation time |
| Favorites.CreateFavoriteKeepsUnique | Services/FavoriteService.cs:92-114 | creation keeps at most one favorite per user and product |
| Favorites.DeleteFavorite | Services/FavoriteService.cs:128-132 | true exactly when a favorite with that id existed; it is removed |
| Favorites.DeleteFavoriteByUserAndProduct | Services/FavoriteService.cs:134-139 | true exactly when the user has that product as a favorite; one such favorite is removed and nothing else changes |
| Favorites.DeleteByUserAndProductRemovesPair | Services/FavoriteService.cs:134-139 | with unique favorites, the pair is no longer a favorite afterwards |
| Auth.Register | Services/AuthService.cs:20-41 | empty email or password and a taken email are refused without writing; otherwise the registration succeeds unless its `_id` is taken, storing the user under the client's id or the generated one, with the hashed password, the role defaulting to "user", and both timestamps set to now |
| Auth.RegisterKeepsEmailsUnique | Services/AuthService.cs:25-30 | registration keeps emails unique |
| Auth.Login | Services/AuthService.cs:43-72 | failures write nothing and return the placeholder user; an unknown email is refused; with unique emails, a login succeeds exactly when both fields are given and the password verifies against the user with that email; success writes only its last-login time |
| Auth.LoginFailuresIndistinguishable | Services/AuthService.cs:45-63 | with both fields given, an unknown email and a wrong password give the same reply |

## Left out

- Controllers, request binding, JWT configuration, `MongoDBService` and `UserService` are not part of this model. The hashing, verification and token functions are parameters, and nothing is assumed about them.
- The read-only queries (`GetAllOrders`, `GetOrderById`, `GetUserOrders`, the review and favorite lookups, `GetProductById`) are plain `Find`s and are not modelled.
- Product create/update/delete are single-document writes with no checks, and are not modelled.
- `AverageRating` is a `double` average; floating point is not modelled, only the review count `UpdateProductRating` writes.
- The regular-expression engine in `SearchProducts` is two parameters: `validPattern` (whether `Regex` accepts the query) and `textMatch` (the store's match on name, description and eco features). The guards and the filter around them are modelled.
- Store faults (lost connection, a write that reports zero modified documents for other reasons) are not modelled. Two faults are modelled: an insert whose `_id` is already taken, and the null dereference in `CreateFavorite`'s logging line (`Favorites.NullDereference`).
- Concurrency is not modelled. Operations run one at a time on one store, so the race between the stock check and the stock decrement cannot show.
- Decimal prices are reals: the 28-digit precision and the overflow of `decimal` are not modelled.
- Stock, quantities and the skip offset are unbounded integers. The 32-bit `int` overflow of the stock increments, of `(pageNumber - 1) * pageSize`, and of the `(int)` casts of the long count and the page count is not modelled. The next-page flag is the exception; see Findings.
- Case-insensitive comparison folds ASCII letters only. Ordinal case-insensitive comparison of non-ASCII letters is not modelled.
- A null item inside an order's item list is not modelled. The source would throw on it.
- `Login` reads the clock twice, once for the stored last-login time and once for the returned user, `Register` reads it twice, for the creation and the last-login time, and `CreateReview` reads it twice, for the creation and the update time. The model uses one reading `now` for both in each.
- `Auth.Placeholder` sets the creation time to 0; the source's `User` initialiser reads the clock there. The field is not exposed to clients on a failed login.
- The placeholder order, review and favorite records the services return next to an error message are not modelled. Errors are constructors rather than message strings, except in `Auth`, where the message is the result.
- Malformed ObjectId strings, which make the driver throw, are not modelled. Ids are arbitrary strings.
- A C# null string is modelled as the empty string.
- Orders.CreateOrder: failures of the per-line stock updates after the insert are logged and ignored by the source; the model has no such failure, so the update always applies (a missing product is left alone).

## Findings

| source | as written | input that shows it | evidently intended | confidence | as-written member | corrected member |
|---|---|---|---|---|---|---|
| Services/ProductService.cs:134 | `HasNextPage = pageNumber * pageSize < totalItems` multiplies two `int`s, which wraps before the comparison with the `long` count | pageNumber 42949673 (accepted by validation), pageSize 50, one matching item: the skip 2147483600 fits in an `int`, so the page comes back empty, while the flag's product 2147483650 wraps to -2147483646 and HasNextPage is true | a next page is reported exactly when items remain beyond the current page | not executed; medium: assumes the default unchecked arithmetic context | Pagination.HasNextPageAsWritten | Pagination.CreatePaginatedResponse |

=== FILE: auth.dfy ===
/** `AuthService`: registration with unique emails and a default role, and login with
    one uniform message for every credential failure. Password hashing, password
    verification and token issuing are opaque functions passed in; nothing is assumed
    about them. */
module Auth {
  import opened Common
  import opened Models

  /** What `Register` and `Login` answer: the user, a token, a message, success. */
  datatype Reply = Reply(user: User, token: string, message: string, success: bool)

  /** A reply, or the exception that escapes `Register` when the insert throws (the
      client supplied an `_id` that is already taken). */
  datatype Outcome = Replied(reply: Reply) | Faulted

  const RequiredMessage := "Email and password are required"
  const DuplicateMessage := "User with this email already exists"
  const RegisteredMessage := "Registration successful"
  const InvalidMessage := "Invalid email or password"
  const LoginMessage := "Login successful"
  const DefaultRole := "user"

  /** Whether some stored user already has this email (exact comparison). */
  predicate EmailTaken(users: map<Id, User>, email: string)
  {
    exists k :: k in users && users[k].email == email
  }

  /** No two stored users share an email. */
  predicate UniqueEmails(users: map<Id, User>)
  {
    forall a, b :: a in users && b in users && a != b ==> users[a].email != users[b].email
  }

  /** `Register`: email and password must be non-empty (a whitespace-only value is
      accepted), the email must be free; the user is stored with the password replaced
      by its hash, the role defaulted to "user" when absent, and both timestamps set. */
  function Register(s: Store, user: User, generated: Id, now: Time,
                    hash: string -> string, issueToken: User -> string)
    : (r: Step<Outcome>)
    ensures r.result.Faulted? || !r.result.reply.success ==> r.store == s
    ensures IsEmpty(user.email) || IsEmpty(user.password) ==>
              r.result == Replied(Reply(user, "", RequiredMessage, false))
    ensures !IsEmpty(user.email) && !IsEmpty(user.password) && EmailTaken(s.users, user.email) ==>
              r.result == Replied(Reply(user, "", DuplicateMessage, false))
    // A well-formed registration with a free email succeeds unless its `_id` is taken.
    ensures !IsEmpty(user.email) && !IsEmpty(user.password) && !EmailTaken(s.users, user.email) ==>
              && (r.result.Faulted? <==> (if user.id.Some? then user.id.value else generated) in s.users)
              && (r.result.Replied? ==> r.result.reply.success)
    ensures r.result.Replied? && r.result.reply.success ==>
              var u := r.result.reply.user;
              && !IsEmpty(user.email) && !IsEmpty(user.password)
              && !EmailTaken(s.users, user.email)
              && u.id.Some? && u.id.value !in s.users
              && u.id.value == (if user.id.Some? then user.id.value else generated)
              && r.store == s.(users := s.users[u.id.value := u])
              && u.email == user.email && u.name == user.name
              && u.password == hash(user.password)
              && u.role == (if user.role.Some? then user.role else Some(DefaultRole))
              && u.createdAt == now && u.lastLoginAt == Some(now)
              && r.result.reply.token == issueToken(u)
              && r.result.reply.message == RegisteredMessage
  {
    if IsEmpty(user.email) || IsEmpty(user.password) then
      Step(Replied(Reply(user, "", RequiredMessage, false)), s)
    else if exists k | k in s.users :: s.users[k].email == user.email then
      Step(Replied(Reply(user, "", DuplicateMessage, false)), s)
    else
      var id := if user.id.Some? then user.id.value else generated;
      if id in s.users then Step(Faulted, s)
      else
        var stored := user.(id := Some(id),
                            password := hash(user.password),
                            role := if user.role.Some? then user.role else Some(DefaultRole),
                            createdAt := now,
                            lastLoginAt := Some(now));
        Step(Replied(Reply(stored, issueToken(stored), RegisteredMessage, true)),
             s.(users := s.users[id := stored]))
  }

  /** Registration keeps stored emails unique. */
  lemma RegisterKeepsEmailsUnique(s: Store, user: User, generated: Id, now: Time,
                                  hash: string -> string, issueToken: User -> string)
    requires UniqueEmails(s.users)
    ensures UniqueEmails(Register(s, user, generated, now, hash, issueToken).store.users)
  {
  }

  /** The stand-in user every failed login returns. */
  function Placeholder(email: string): User
  {
    User(None, email, "********", "Unknown", None, 0, None)
  }

  /** `Login`: empty email or password is refused; otherwise the user the store finds
      first by email is checked against the password. An unknown email and a wrong
      password get the same message and the same placeholder user. On success only the
      last-login time of that user is written. */
  ghost function Login(s: Store, email: string, password: string, now: Time,
                       verify: (string, string) -> bool, issueToken: User -> string)
    : (r: Step<Reply>)
    ensures !r.result.success ==> r.store == s && r.result.user == Placeholder(email)
                                  && r.result.token == ""
    ensures IsEmpty(email) || IsEmpty(password) ==> r.result.message == RequiredMessage
    ensures !IsEmpty(email) && !IsEmpty(password) && !EmailTaken(s.users, email) ==>
              r.result.message == InvalidMessage && !r.result.success
    // With unique emails, the login succeeds exactly when the password verifies
    // against the one user with that email.
    ensures UniqueEmails(s.users) ==>
              (r.result.success <==>
                 && !IsEmpty(email) && !IsEmpty(password)
                 && exists k :: k in s.users && s.users[k].email == email
                      && verify(password, s.users[k].password))
    ensures r.result.success ==>
              && !IsEmpty(email) && !IsEmpty(password)
              && exists k :: k in s.users && s.users[k].email == email
                   && verify(password, s.users[k].password)
                   && r.store == s.(users := s.users[k := s.users[k].(lastLoginAt := Some(now))])
                   && r.result.user == s.users[k].(lastLoginAt := Some(now))
                   && r.result.token == issueToken(r.result.user)
                   && r.result.message == LoginMessage
  {
    if IsEmpty(email) || IsEmpty(password) then
      Step(Reply(Placeholder(email), "", RequiredMessage, false), s)
    else if k :| k in s.users && s.users[k].email == email then
      var found := s.users[k];
      if !verify(password, found.password) then
        Step(Reply(Placeholder(email), "", InvalidMessage, false), s)
      else
        var user := found.(lastLoginAt := Some(now));
        Step(Reply(user, issueToken(user), LoginMessage, true), s.(users := s.users[k := user]))
    else
      Step(Reply(Placeholder(email), "", InvalidMessage, false), s)
  }

  /** Every credential failure reads the same: a wrong password for a known email and
      an unknown email give equal replies. */
  lemma LoginFailuresIndistinguishable(s: Store, email: string, password: string, now: Time,
                                       verify: (string, string) -> bool, issueToken: User -> string)
    requires !IsEmpty(email) && !IsEmpty(password)
    ensures var r := Login(s, email, password, now, verify, issueToken);
            !r.result.success ==> r.result == Reply(Placeholder(email), "", InvalidMessage, false)
  {
  }
}

=== FILE: catalog.dfy ===
/** The paged product queries of `ProductService`. The store evaluates each query's
    filter and hands back the matching documents in its own order; the service counts
    them and cuts one page out of them. The text-search filter itself belongs to the
    store and is a parameter here. */
module Catalog {
  import opened Common
  import opened Models
  import opened Pagination

  /** The documents that satisfy a filter, in the order the store returns them. */
  function Matching(documents: seq<Product>, filter: Product -> bool): (r: seq<Product>)
    ensures |r| <= |documents|
    ensures forall x :: x in r <==> x in documents && filter(x)
    ensures forall x :: x in documents && filter(x) ==> multiset(r)[x] == multiset(documents)[x]
  {
    if documents == [] then []
    else
      var rest := Matching(documents[1..], filter);
      assert forall x :: x in documents <==> x == documents[0] || x in documents[1..];
      assert documents == [documents[0]] + documents[1..];
      if filter(documents[0]) then [documents[0]] + rest else rest
  }

  /** The category filter. */
  function InCategory(category: string): Product -> bool
  {
    (p: Product) => p.category == category
  }

  /** The eco-friendly filter. */
  function EcoFriendly(): Product -> bool
  {
    (p: Product) => p.isEcoFriendly
  }

  /** The text-search filter, the match itself being the store's. */
  function TextFilter(query: string, textMatch: (string, Product) -> bool): Product -> bool
  {
    (p: Product) => textMatch(query, p)
  }

  /** `GetProducts`: every product. */
  function GetProducts(documents: seq<Product>, req: PageRequest): (r: PaginatedResponse<Product>)
    ensures (r.pageNumber, r.pageSize) == GetValidatedValues(req)
    ensures r.totalItems == |documents|
    ensures r.items == Window(documents, r.pageNumber, r.pageSize)
  {
    Page(documents, req)
  }

  /** `GetProductsByCategory`: products whose category equals the given one. */
  function GetProductsByCategory(documents: seq<Product>, category: string, req: PageRequest)
    : (r: PaginatedResponse<Product>)
    ensures (r.pageNumber, r.pageSize) == GetValidatedValues(req)
    ensures forall p :: p in r.items ==> p in documents && p.category == category
    ensures r.totalItems == |Matching(documents, InCategory(category))|
    ensures r.items == Window(Matching(documents, InCategory(category)), r.pageNumber, r.pageSize)
  {
    var m := Matching(documents, InCategory(category));
    assert forall p :: p in Window(m, GetValidatedValues(req).0, GetValidatedValues(req).1) ==> p in m;
    Page(m, req)
  }

  /** `GetEcoFriendlyProducts`: products flagged eco-friendly. */
  function GetEcoFriendlyProducts(documents: seq<Product>, req: PageRequest)
    : (r: PaginatedResponse<Product>)
    ensures (r.pageNumber, r.pageSize) == GetValidatedValues(req)
    ensures forall p :: p in r.items ==> p in documents && p.isEcoFriendly
    ensures r.totalItems == |Matching(documents, EcoFriendly())|
    ensures r.items == Window(Matching(documents, EcoFriendly()), r.pageNumber, r.pageSize)
  {
    var m := Matching(documents, EcoFriendly());
    assert forall p :: p in Window(m, GetValidatedValues(req).0, GetValidatedValues(req).1) ==> p in m;
    Page(m, req)
  }

  /** The two `ArgumentException`s a search can raise: the blank-query guard's, and the
      one `Regex` raises for a pattern it cannot parse. */
  datatype SearchError = EmptyQuery | InvalidPattern

  /** `SearchProducts`: a null or whitespace query is refused before anything else; a
      query `Regex` cannot parse is refused next; otherwise the store's text match
      selects the products. Both the pattern grammar and the match are the regular
      expression engine's and are parameters here. */
  function SearchProducts(documents: seq<Product>, query: string, req: PageRequest,
                          validPattern: string -> bool, textMatch: (string, Product) -> bool)
    : (r: Result<PaginatedResponse<Product>, SearchError>)
    ensures r.Err? <==> IsBlank(query) || !validPattern(query)
    ensures r == Err(EmptyQuery) <==> IsBlank(query)
    ensures r.Ok? ==>
              && (r.value.pageNumber, r.value.pageSize) == GetValidatedValues(req)
              && (forall p :: p in r.value.items ==> p in documents && textMatch(query, p))
              && r.value.totalItems == |Matching(documents, TextFilter(query, textMatch))|
              && r.value.items == Window(Matching(documents, TextFilter(query, textMatch)),
                                         r.value.pageNumber, r.value.pageSize)
  {
    if IsBlank(query) then Err(EmptyQuery)
    else if !validPattern(query) then Err(InvalidPattern)
    else
      var m := Matching(documents, TextFilter(query, textMatch));
      assert forall p :: p in Window(m, GetValidatedValues(req).0, GetValidatedValues(req).1) ==> p in m;
      Ok(Page(m, req))
  }
}

=== FILE: common.dfy ===
/** Shared vocabulary: nullable values, outcomes, and the string tests the services
    use on their inputs (`string.IsNullOrWhiteSpace`, `string.IsNullOrEmpty`).

    A C# `null` string is modelled as the empty string: every check in the modelled
    services that can see one is `IsNullOrWhiteSpace` or `IsNullOrEmpty`, and both treat
    `null` exactly like `""`. */
module Common {

  /** A reference that may be `null`. */
  datatype Option<+T> = None | Some(value: T)

  /** The outcome of a service operation: a value or a structured error. */
  datatype Result<+T, +E> = Ok(value: T) | Err(error: E)

  /** Characters for which .NET's `char.IsWhiteSpace` holds: the Unicode space,
      line and paragraph separators, plus U+0009..U+000D and U+0085. */
  predicate IsWhiteSpace(c: char)
  {
    || ('\U{0009}' <= c <= '\U{000D}')
    || c == '\U{0020}' || c == '\U{0085}' || c == '\U{00A0}' || c == '\U{1680}'
    || ('\U{2000}' <= c <= '\U{200A}')
    || c == '\U{2028}' || c == '\U{2029}' || c == '\U{202F}' || c == '\U{205F}'
    || c == '\U{3000}'
  }

  /** `string.IsNullOrWhiteSpace`: empty, or whitespace only. */
  predicate IsBlank(s: string)
  {
    forall i :: 0 <= i < |s| ==> IsWhiteSpace(s[i])
  }

  /** `string.IsNullOrEmpty`: a whitespace-only string is NOT empty. */
  predicate IsEmpty(s: string)
  {
    s == []
  }
}

=== FILE: conservation.dfy ===
/** Stock conservation. Every unit an order still holds was taken from its product's
    stock and not yet given back; an order gives its units back only when it is
    cancelled (or deleted while Pending). So, for every product in the catalog,
    stock plus the units held by orders that are not Cancelled is the same before and
    after every checked order operation. Refunded orders keep holding their units: a
    refund never restores stock. */
module Conservation {
  import opened Common
  import opened Models
  import opened Stock
  import opened Orders

  /** The units of product `pid` one order holds. */
  function Holding(o: Order, pid: Id): int
  {
    if o.status == "Cancelled" then 0 else QtyOf(o.items, pid)
  }

  /** The units of `pid` held by the orders under `keys`. */
  ghost function HeldOver(orders: map<Id, Order>, keys: set<Id>, pid: Id): int
    requires keys <= orders.Keys
    decreases keys
  {
    if keys == {} then 0
    else
      var k :| k in keys;
      Holding(orders[k], pid) + HeldOver(orders, keys - {k}, pid)
  }

  /** The units of `pid` held by all orders in the store. */
  ghost function Held(orders: map<Id, Order>, pid: Id): int
  {
    HeldOver(orders, orders.Keys, pid)
  }

  /** The quantity that stays constant: stock on hand plus stock held by orders. */
  ghost function Accounted(s: Store, pid: Id): int
    requires pid in s.products
  {
    StockOf(s, pid) + Held(s.orders, pid)
  }

  /** Any order may be taken out of the sum first. */
  lemma {:induction false} HeldOverRemove(orders: map<Id, Order>, keys: set<Id>, k: Id, pid: Id)
    requires keys <= orders.Keys && k in keys
    ensures HeldOver(orders, keys, pid) == Holding(orders[k], pid) + HeldOver(orders, keys - {k}, pid)
    decreases keys
  {
    var j :| j in keys && HeldOver(orders, keys, pid)
                          == Holding(orders[j], pid) + HeldOver(orders, keys - {j}, pid);
    if j != k {
      HeldOverRemove(orders, keys - {j}, k, pid);
      HeldOverRemove(orders, keys - {k}, j, pid);
      assert keys - {j} - {k} == keys - {k} - {j};
    }
  }

  /** The sum only looks at the orders under `keys`. */
  lemma {:induction false} HeldOverFrame(a: map<Id, Order>, b: map<Id, Order>, keys: set<Id>, pid: Id)
    requires keys <= a.Keys && keys <= b.Keys
    requires forall k :: k in keys ==> a[k] == b[k]
    ensures HeldOver(a, keys, pid) == HeldOver(b, keys, pid)
    decreases keys
  {
    if keys != {} {
      var k :| k in keys;
      HeldOverRemove(a, keys, k, pid);
      HeldOverRemove(b, keys, k, pid);
      HeldOverFrame(a, b, keys - {k}, pid);
    }
  }

  /** Inserting or replacing one order changes the sum by the difference of holdings. */
  lemma HeldAfterPut(orders: map<Id, Order>, k: Id, o: Order, pid: Id)
    ensures Held(orders[k := o], pid)
         == Held(orders, pid) + Holding(o, pid) - (if k in orders then Holding(orders[k], pid) else 0)
  {
    var after := orders[k := o];
    var rest := orders.Keys - {k};
    HeldOverRemove(after, after.Keys, k, pid);
    assert after.Keys - {k} == rest;
    HeldOverFrame(after, orders, rest, pid);
    if k in orders {
      HeldOverRemove(orders, orders.Keys, k, pid);
    } else {
      assert orders.Keys == rest;
    }
  }

  /** Removing one order takes its holding out of the sum. */
  lemma HeldAfterRemove(orders: map<Id, Order>, k: Id, pid: Id)
    requires k in orders
    ensures Held(orders - {k}, pid) == Held(orders, pid) - Holding(orders[k], pid)
  {
    var after := orders - {k};
    HeldOverRemove(orders, orders.Keys, k, pid);
    assert after.Keys == orders.Keys - {k};
    HeldOverFrame(after, orders, after.Keys, pid);
  }

  /** Creating an order moves its units from stock into the new Pending order. */
  lemma CreateOrderConserves(s: Store, draft: Option<OrderDraft>, generated: Id, now: Time)
    ensures var r := CreateOrder(s, draft, generated, now);
            forall p :: p in s.products ==> p in r.store.products && Accounted(r.store, p) == Accounted(s, p)
  {
    var r := CreateOrder(s, draft, generated, now);
    if r.result.Ok? {
      var o := r.result.value;
      forall p | p in s.products
        ensures p in r.store.products && Accounted(r.store, p) == Accounted(s, p)
      {
        HeldAfterPut(s.orders, o.id, o, p);
      }
    }
  }

  /** A status update either leaves stock and holdings alone or, on cancellation,
      moves the order's units back from the order to stock. */
  lemma UpdateOrderStatusConserves(s: Store, orderId: Id, newStatus: string, userId: Id, isAdmin: bool, now: Time)
    ensures var r := UpdateOrderStatus(s, orderId, newStatus, userId, isAdmin, now);
            forall p :: p in s.products ==> p in r.store.products && Accounted(r.store, p) == Accounted(s, p)
  {
    var r := UpdateOrderStatus(s, orderId, newStatus, userId, isAdmin, now);
    if r.result.Ok? {
      var o := s.orders[orderId];
      var updated := o.(status := newStatus, updatedAt := now);
      forall p | p in s.products
        ensures p in r.store.products && Accounted(r.store, p) == Accounted(s, p)
      {
        HeldAfterPut(s.orders, orderId, updated, p);
        assert o.status != "Cancelled" by {
          OrderStatus.TransitionMatchesTable(o.status, newStatus);
        }
      }
    }
  }

  /** Deleting a Pending order moves its units back from the order to stock. */
  lemma DeleteOrderConserves(s: Store, orderId: Id, userId: Id, isAdmin: bool)
    ensures var r := DeleteOrder(s, orderId, userId, isAdmin);
            forall p :: p in s.products ==> p in r.store.products && Accounted(r.store, p) == Accounted(s, p)
  {
    var r := DeleteOrder(s, orderId, userId, isAdmin);
    if r.result.Ok? {
      forall p | p in s.products
        ensures p in r.store.products && Accounted(r.store, p) == Accounted(s, p)
      {
        HeldAfterRemove(s.orders, orderId, p);
      }
    }
  }

  /** The unchecked deletion drops a live order's units on the floor: they are neither
      held by an order nor back in stock. */
  lemma DeleteOrderUncheckedLosesStock(s: Store, orderId: Id, p: Id)
    requires orderId in s.orders && p in s.products
    ensures var r := DeleteOrderUnchecked(s, orderId);
            Accounted(r.store, p) == Accounted(s, p) - Holding(s.orders[orderId], p)
  {
    HeldAfterRemove(s.orders, orderId, p);
  }
}

=== FILE: favorites.dfy ===
/** `FavoriteService`: adding a product to a user's favorites at most once, and
    removing favorites by id or by (user, product). */
module Favorites {
  import opened Common
  import opened Models

  /** The favorite a client submits; its `Id` is usually absent. */
  datatype FavoriteDraft = FavoriteDraft(id: Option<Id>, userId: string, productId: string)

  datatype FavoriteError =
    /** The `NullReferenceException` raised by the logging line that reads the
        favorite's fields before the null check; it escapes the method. */
    | NullDereference
    | UserIdRequired
    | ProductIdRequired
    | ProductNotFound
    | UserNotFound
    | AlreadyFavorite
    | CreationFailed

  /** Whether `userId` has `pid` among their favorites. */
  predicate IsFavorite(favorites: map<Id, Favorite>, userId: Id, pid: Id)
  {
    exists k :: k in favorites && favorites[k].userId == userId && favorites[k].productId == pid
  }

  /** At most one favorite per (user, product). */
  predicate UniqueFavorites(favorites: map<Id, Favorite>)
  {
    forall a, b :: a in favorites && b in favorites && a != b ==>
      (favorites[a].userId, favorites[a].productId) != (favorites[b].userId, favorites[b].productId)
  }

  /** `CreateFavorite`: blank user id, blank product id, unknown PRODUCT, unknown user,
      already a favorite; then exactly one favorite is inserted with its creation time
      set. A null favorite never reaches the null check: the method faults first. */
  function CreateFavorite(s: Store, favorite: Option<FavoriteDraft>, generated: Id, now: Time)
    : (r: Step<Result<Favorite, FavoriteError>>)
    ensures r.result.Err? ==> r.store == s
    ensures r.result == Err(NullDereference) <==> favorite.None?
    ensures r.result.Ok? <==>
              && favorite.Some?
              && !IsBlank(favorite.value.userId) && !IsBlank(favorite.value.productId)
              && favorite.value.productId in s.products && favorite.value.userId in s.users
              && !IsFavorite(s.favorites, favorite.value.userId, favorite.value.productId)
              && (if favorite.value.id.Some? then favorite.value.id.value else generated) !in s.favorites
    ensures r.result == Err(UserIdRequired) <==> favorite.Some? && IsBlank(favorite.value.userId)
    ensures r.result == Err(ProductIdRequired) <==>
              favorite.Some? && !IsBlank(favorite.value.userId) && IsBlank(favorite.value.productId)
    // The product is looked up before the user.
    ensures r.result == Err(ProductNotFound) <==>
              && favorite.Some? && !IsBlank(favorite.value.userId) && !IsBlank(favorite.value.productId)
              && favorite.value.productId !in s.products
    ensures r.result == Err(UserNotFound) <==>
              && favorite.Some? && !IsBlank(favorite.value.userId) && !IsBlank(favorite.value.productId)
              && favorite.value.productId in s.products && favorite.value.userId !in s.users
    ensures r.result == Err(AlreadyFavorite) <==>
              && favorite.Some? && !IsBlank(favorite.value.userId) && !IsBlank(favorite.value.productId)
              && favorite.value.productId in s.products && favorite.value.userId in s.users
              && IsFavorite(s.favorites, favorite.value.userId, favorite.value.productId)
    ensures r.result == Err(CreationFailed) <==>
              && favorite.Some? && !IsBlank(favorite.value.userId) && !IsBlank(favorite.value.productId)
              && favorite.value.productId in s.products && favorite.value.userId in s.users
              && !IsFavorite(s.favorites, favorite.value.userId, favorite.value.productId)
              && (if favorite.value.id.Some? then favorite.value.id.value else generated) in s.favorites
    ensures r.result.Ok? ==>
              var f := r.result.value;
              && favorite.Some?
              && f.userId == favorite.value.userId && f.productId == favorite.value.productId
              && f.createdAt == now
              && f.id == (if favorite.value.id.Some? then favorite.value.id.value else generated)
              && f.id !in s.favorites
              && r.store == s.(favorites := s.favorites[f.id := f])
  {
    if favorite.None? then Step(Err(NullDereference), s)
    else
      var d := favorite.value;
      if IsBlank(d.userId) then Step(Err(UserIdRequired), s)
      else if IsBlank(d.productId) then Step(Err(ProductIdRequired), s)
      else if d.productId !in s.products then Step(Err(ProductNotFound), s)
      else if d.userId !in s.users then Step(Err(UserNotFound), s)
      else if exists k | k in s.favorites :: s.favorites[k].userId == d.userId && s.favorites[k].productId == d.productId
      then Step(Err(AlreadyFavorite), s)
      else
        var id := if d.id.Some? then d.id.value else generated;
        if id in s.favorites then Step(Err(CreationFailed), s)
        else
          var f := Favorite(id, d.userId, d.productId, now);
          Step(Ok(f), s.(favorites := s.favorites[id := f]))
  }

  /** Adding a favorite never creates a second one for the same (user, product). */
  lemma CreateFavoriteKeepsUnique(s: Store, favorite: Option<FavoriteDraft>, generated: Id, now: Time)
    requires UniqueFavorites(s.favorites)
    ensures UniqueFavorites(CreateFavorite(s, favorite, generated, now).store.favorites)
  {
  }

  /** `DeleteFavorite(id)`: true iff a favorite with that id was removed. */
  function DeleteFavorite(s: Store, id: Id): (r: Step<bool>)
    ensures r.result <==> id in s.favorites
    ensures r.store == s.(favorites := s.favorites - {id})
    ensures |r.store.favorites| == |s.favorites| - (if r.result then 1 else 0)
  {
    Step(id in s.favorites, s.(favorites := s.favorites - {id}))
  }

  /** `DeleteFavoriteByUserAndProduct`: `DeleteOne` removes one matching favorite,
      whichever the store finds first, and reports whether it removed one. */
  ghost function DeleteFavoriteByUserAndProduct(s: Store, userId: Id, pid: Id): (r: Step<bool>)
    ensures r.result <==> IsFavorite(s.favorites, userId, pid)
    ensures r.store.users == s.users && r.store.products == s.products
    ensures r.store.orders == s.orders && r.store.reviews == s.reviews
    ensures !r.result ==> r.store == s
    ensures r.result ==>
              exists k :: k in s.favorites && s.favorites[k].userId == userId && s.favorites[k].productId == pid
                && r.store.favorites == s.favorites - {k}
  {
    if k :| k in s.favorites && s.favorites[k].userId == userId && s.favorites[k].productId == pid
    then Step(true, s.(favorites := s.favorites - {k}))
    else Step(false, s)
  }

  /** With favorites unique, removing by (user, product) leaves none for that pair. */
  lemma DeleteByUserAndProductRemovesPair(s: Store, userId: Id, pid: Id)
    requires UniqueFavorites(s.favorites)
    ensures var after := DeleteFavoriteByUserAndProduct(s, userId, pid).store;
            !IsFavorite(after.favorites, userId, pid) && UniqueFavorites(after.favorites)
  {
  }
}

=== FILE: models.dfy ===
/** The documents the services read and write, and the store that holds them.

    Each collection is a finite map from the document's `_id` to the document: the
    store keeps `_id` unique, and every point lookup in the services is by `_id`.
    Timestamps are opaque clock readings supplied by the caller of an operation. */
module Models {
  import opened Common

  type Id = string
  type Time = int

  datatype Product = Product(
    id: Id,
    name: string,
    category: string,
    price: real,
    stockQuantity: int,
    isEcoFriendly: bool,
    reviewCount: int)

  datatype User = User(
    id: Option<Id>,
    email: string,
    password: string,
    name: string,
    role: Option<string>,
    createdAt: Time,
    lastLoginAt: Option<Time>)

  datatype ShippingAddress = ShippingAddress(
    street: string, city: string, state: string, zipCode: string, country: string)

  datatype OrderItem = OrderItem(productId: Id, quantity: int)

  datatype Order = Order(
    id: Id,
    userId: Id,
    items: seq<OrderItem>,
    shippingAddress: ShippingAddress,
    totalAmount: real,
    status: string,
    orderDate: Time,
    updatedAt: Time)

  datatype Review = Review(
    id: Id,
    userId: Id,
    productId: Id,
    rating: int,
    comment: string,
    images: seq<string>,
    createdAt: Time,
    updatedAt: Time)

  datatype Favorite = Favorite(id: Id, userId: Id, productId: Id, createdAt: Time)

  /** The document store: one map per collection, keyed by `_id`. */
  datatype Store = Store(
    users: map<Id, User>,
    products: map<Id, Product>,
    orders: map<Id, Order>,
    reviews: map<Id, Review>,
    favorites: map<Id, Favorite>)

  /** What a service operation answers, and the store it leaves behind. */
  datatype Step<+R> = Step(result: R, store: Store)

  /** Stock of a product present in the catalog. */
  function StockOf(s: Store, pid: Id): int
    requires pid in s.products
  {
    s.products[pid].stockQuantity
  }
}

=== FILE: orders.dfy ===
/** `OrderService`: order creation with stock reservation, status updates through the
    status machine with stock release on cancellation, and deletion of pending orders. */
module Orders {
  import opened Common
  import opened Models
  import opened Stock
  import OrderStatus

  /** The order a client submits. Its total, status and order date are overwritten on
      creation; its `Id` is usually absent, and the store generates one. */
  datatype OrderDraft = OrderDraft(
    id: Option<Id>,
    userId: string,
    items: Option<seq<OrderItem>>,
    shippingAddress: Option<ShippingAddress>,
    totalAmount: real,
    status: string,
    updatedAt: Time)

  /** Why an order operation refused, one constructor per distinct message. */
  datatype OrderError =
    | OrderNull
    | UserIdRequired
    | UserNotFound(userId: Id)
    | ShippingAddressRequired
    | NoItems
    | ProductIdRequired
    | InvalidQuantity(productId: Id)
    | ProductNotFound(productId: Id)
    | InsufficientStock(productId: Id, available: int, requested: int)
    | CreationFailed
    | InvalidStatus
    | OrderNotFound
    | NotAuthorized
    | IllegalTransition(from: string, to: string)
    | NotPending

  // ---------------------------------------------------------------------------
  // Creation

  /** An order line that passes all four per-line checks against the catalog. */
  predicate ItemAdmissible(item: OrderItem, products: map<Id, Product>)
  {
    && !IsBlank(item.productId)
    && item.quantity > 0
    && item.productId in products
    && products[item.productId].stockQuantity >= item.quantity
  }

  /** The per-line checks in source order; `None` when the line passes. */
  function CheckItem(item: OrderItem, products: map<Id, Product>): (r: Option<OrderError>)
    ensures r.None? <==> ItemAdmissible(item, products)
    // The checks come in this order, each reporting its own error.
    ensures r == Some(ProductIdRequired) <==> IsBlank(item.productId)
    ensures r == Some(InvalidQuantity(item.productId)) <==>
              !IsBlank(item.productId) && item.quantity <= 0
    ensures r == Some(ProductNotFound(item.productId)) <==>
              !IsBlank(item.productId) && item.quantity > 0 && item.productId !in products
    ensures item.productId in products ==>
              (r == Some(InsufficientStock(item.productId, products[item.productId].stockQuantity, item.quantity))
               <==> !IsBlank(item.productId) && item.quantity > 0
                    && products[item.productId].stockQuantity < item.quantity)
  {
    if IsBlank(item.productId) then Some(ProductIdRequired)
    else if item.quantity <= 0 then Some(InvalidQuantity(item.productId))
    else if item.productId !in products then Some(ProductNotFound(item.productId))
    else if products[item.productId].stockQuantity < item.quantity then
      Some(InsufficientStock(item.productId, products[item.productId].stockQuantity, item.quantity))
    else None
  }

  /** Price times quantity of one line, at the catalog's current price. */
  function LineAmount(item: OrderItem, products: map<Id, Product>): real
  {
    if item.productId in products
    then products[item.productId].price * (item.quantity as real)
    else 0.0
  }

  /** The sum of price times quantity over the lines. */
  function OrderTotal(items: seq<OrderItem>, products: map<Id, Product>): real
  {
    if items == [] then 0.0 else LineAmount(items[0], products) + OrderTotal(items[1..], products)
  }

  /** The validation loop from line `i` on, carrying the running total `acc` as the
      source's `foreach` does, and stopping at the first line that fails. */
  function ValidateFrom(items: seq<OrderItem>, products: map<Id, Product>, i: nat, acc: real)
    : (r: Result<real, OrderError>)
    requires i <= |items|
    decreases |items| - i
    ensures r.Ok? <==> forall j :: i <= j < |items| ==> ItemAdmissible(items[j], products)
    ensures r.Ok? ==> r.value == acc + OrderTotal(items[i..], products)
    ensures r.Err? ==>
              exists j :: i <= j < |items|
                && (forall k :: i <= k < j ==> ItemAdmissible(items[k], products))
                && CheckItem(items[j], products) == Some(r.error)
  {
    if i == |items| then Ok(acc)
    else
      match CheckItem(items[i], products)
      case Some(e) => Err(e)
      case None =>
        assert items[i..][1..] == items[i + 1..];
        ValidateFrom(items, products, i + 1, acc + LineAmount(items[i], products))
  }

  /** The errors the per-line checks can raise. */
  predicate IsLineError(e: OrderError)
  {
    e.ProductIdRequired? || e.InvalidQuantity? || e.ProductNotFound? || e.InsufficientStock?
  }

  /** The checks `CreateOrder` makes before it looks at the lines. */
  predicate HeaderAdmissible(s: Store, d: OrderDraft)
  {
    && !IsBlank(d.userId)
    && d.userId in s.users
    && d.shippingAddress.Some?
    && d.items.Some? && d.items.value != []
  }

  /** All checks `CreateOrder` makes, in its order. */
  predicate Admissible(s: Store, d: OrderDraft)
  {
    && HeaderAdmissible(s, d)
    && (forall j :: 0 <= j < |d.items.value| ==> ItemAdmissible(d.items.value[j], s.products))
  }

  /** The `_id` the inserted order gets: the client's, or the one the store generates. */
  function InsertId(d: OrderDraft, generated: Id): Id
  {
    if d.id.Some? then d.id.value else generated
  }

  /** `e` is the error of the first line that fails, all lines before it passing. */
  predicate FirstFailingLine(items: seq<OrderItem>, products: map<Id, Product>, e: OrderError)
  {
    exists j :: 0 <= j < |items|
      && (forall k :: 0 <= k < j ==> ItemAdmissible(items[k], products))
      && CheckItem(items[j], products) == Some(e)
  }

  /** `e` names a line, before which all lines pass, asking for more of its product
      than the catalog holds, with the amounts it reports. */
  predicate ShortOfStock(items: seq<OrderItem>, products: map<Id, Product>, e: OrderError)
    requires e.InsufficientStock?
  {
    exists j :: 0 <= j < |items|
      && (forall k :: 0 <= k < j ==> ItemAdmissible(items[k], products))
      && items[j].productId == e.productId
      && items[j].quantity == e.requested
      && items[j].productId in products
      && e.available == products[items[j].productId].stockQuantity
      && e.available < e.requested
  }

  /** The part of `CreateOrder` after the header checks: the validation loop over the
      lines, the insert, and the stock decrements. */
  function PlaceOrder(s: Store, d: OrderDraft, generated: Id, now: Time)
    : (r: Step<Result<Order, OrderError>>)
    requires HeaderAdmissible(s, d)
    ensures r.result.Err? ==> r.store == s
    ensures r.result.Ok? <==> Admissible(s, d) && InsertId(d, generated) !in s.orders
    ensures r.result.Err? ==> IsLineError(r.result.error) || r.result.error == CreationFailed
    // A line error names the first line that fails, all lines before it passing.
    ensures r.result.Err? && IsLineError(r.result.error) ==>
              FirstFailingLine(d.items.value, s.products, r.result.error)
    ensures r.result == Err(CreationFailed) ==> Admissible(s, d) && InsertId(d, generated) in s.orders
    ensures r.result.Err? && r.result.error.InsufficientStock? ==>
              ShortOfStock(d.items.value, s.products, r.result.error)
    ensures r.result.Ok? ==>
              var o := r.result.value;
              && o == Order(InsertId(d, generated), d.userId, d.items.value, d.shippingAddress.value,
                            OrderTotal(d.items.value, s.products), "Pending", now, d.updatedAt)
              && r.store == s.(orders := s.orders[o.id := o],
                               products := AdjustStock(s.products, o.items, false))
  {
    var items := d.items.value;
    match ValidateFrom(items, s.products, 0, 0.0)
    case Err(e) => Step(Err(e), s)
    case Ok(total) =>
      assert items[0..] == items;
      var id := InsertId(d, generated);
      if id in s.orders then Step(Err(CreationFailed), s)
      else
        var o := Order(id, d.userId, items, d.shippingAddress.value, total, "Pending", now, d.updatedAt);
        Step(Ok(o), s.(orders := s.orders[id := o],
                       products := AdjustStock(s.products, items, false)))
  }

  /** `CreateOrder`: validate, compute the total, force the status to Pending, insert,
      then take each line's quantity from its product's stock. An `_id` that is already
      taken makes the insert throw, which the source reports as a creation failure. */
  function CreateOrder(s: Store, draft: Option<OrderDraft>, generated: Id, now: Time)
    : (r: Step<Result<Order, OrderError>>)
    // No write of any kind unless every check passed and the insert went through.
    ensures r.result.Err? ==> r.store == s
    ensures r.result.Ok? <==>
              draft.Some? && Admissible(s, draft.value) && InsertId(draft.value, generated) !in s.orders
    // The checks come in this order; each error means all earlier checks passed.
    ensures r.result == Err(OrderNull) <==> draft.None?
    ensures r.result == Err(UserIdRequired) <==> draft.Some? && IsBlank(draft.value.userId)
    ensures r.result.Err? && r.result.error.UserNotFound? <==>
              draft.Some? && !IsBlank(draft.value.userId) && draft.value.userId !in s.users
    ensures r.result.Err? && r.result.error.UserNotFound? ==>
              r.result.error == UserNotFound(draft.value.userId)
    ensures r.result == Err(ShippingAddressRequired) <==>
              draft.Some? && !IsBlank(draft.value.userId) && draft.value.userId in s.users
              && draft.value.shippingAddress.None?
    ensures r.result == Err(NoItems) <==>
              draft.Some? && !IsBlank(draft.value.userId) && draft.value.userId in s.users
              && draft.value.shippingAddress.Some?
              && (draft.value.items.None? || draft.value.items.value == [])
    // A line error names the first line that fails, all lines before it passing.
    ensures r.result.Err? && IsLineError(r.result.error) ==>
              && draft.Some? && HeaderAdmissible(s, draft.value)
              && FirstFailingLine(draft.value.items.value, s.products, r.result.error)
    ensures r.result.Err? && draft.Some? && HeaderAdmissible(s, draft.value) ==>
              IsLineError(r.result.error) || r.result.error == CreationFailed
    ensures r.result == Err(CreationFailed) <==>
              draft.Some? && Admissible(s, draft.value) && InsertId(draft.value, generated) in s.orders
    ensures r.result.Err? && r.result.error.InsufficientStock? ==>
              && draft.Some? && draft.value.items.Some?
              && ShortOfStock(draft.value.items.value, s.products, r.result.error)
    // On success: the committed order, and one stock decrement per line.
    ensures r.result.Ok? ==>
              var o := r.result.value;
              && draft.Some? && draft.value.items.Some?
              && o.id == InsertId(draft.value, generated)
              && o.userId == draft.value.userId
              && o.items == draft.value.items.value
              && draft.value.shippingAddress.Some?
              && o.shippingAddress == draft.value.shippingAddress.value
              && o.updatedAt == draft.value.updatedAt
              && o.totalAmount == OrderTotal(o.items, s.products)
              && o.status == "Pending"
              && o.orderDate == now
              && r.store.orders == s.orders[o.id := o]
              && r.store.products.Keys == s.products.Keys
              && (forall p :: p in s.products ==>
                    && SameButStock(r.store.products[p], s.products[p])
                    && StockOf(r.store, p) == StockOf(s, p) - QtyOf(o.items, p))
              && r.store.users == s.users
              && r.store.reviews == s.reviews
              && r.store.favorites == s.favorites
  {
    if draft.None? then Step(Err(OrderNull), s)
    else
      var d := draft.value;
      if IsBlank(d.userId) then Step(Err(UserIdRequired), s)
      else if d.userId !in s.users then Step(Err(UserNotFound(d.userId)), s)
      else if d.shippingAddress.None? then Step(Err(ShippingAddressRequired), s)
      else if d.items.None? || d.items.value == [] then Step(Err(NoItems), s)
      else PlaceOrder(s, d, generated, now)
  }

  // ---------------------------------------------------------------------------
  // Status updates

  /** `UpdateOrderStatus`: validity of the name, then existence, then ownership (or
      admin), then the transition. A cancellation gives each line's quantity back to
      its product before the status is written. The answer is whether the status write
      modified the document, which it does unless status and timestamp are unchanged. */
  function UpdateOrderStatus(s: Store, orderId: Id, newStatus: string, userId: Id, isAdmin: bool, now: Time)
    : (r: Step<Result<bool, OrderError>>)
    ensures r.result.Err? ==> r.store == s
    ensures r.result.Ok? <==>
              && OrderStatus.IsValidStatus(newStatus)
              && orderId in s.orders
              && (isAdmin || s.orders[orderId].userId == userId)
              && OrderStatus.IsValidStatusTransition(s.orders[orderId].status, newStatus)
    ensures r.result == Err(InvalidStatus) <==> !OrderStatus.IsValidStatus(newStatus)
    ensures r.result == Err(OrderNotFound) <==>
              OrderStatus.IsValidStatus(newStatus) && orderId !in s.orders
    ensures r.result == Err(NotAuthorized) <==>
              && OrderStatus.IsValidStatus(newStatus) && orderId in s.orders
              && !isAdmin && s.orders[orderId].userId != userId
    ensures r.result.Err? && r.result.error.IllegalTransition? <==>
              && OrderStatus.IsValidStatus(newStatus) && orderId in s.orders
              && (isAdmin || s.orders[orderId].userId == userId)
              && !OrderStatus.IsValidStatusTransition(s.orders[orderId].status, newStatus)
    ensures r.result.Err? && r.result.error.IllegalTransition? ==>
              && orderId in s.orders
              && (isAdmin || s.orders[orderId].userId == userId)
              && r.result.error == IllegalTransition(s.orders[orderId].status, newStatus)
    ensures r.result.Ok? ==>
              var o := s.orders[orderId];
              // Only the status and the update time are written.
              && r.store.orders == s.orders[orderId := o.(status := newStatus, updatedAt := now)]
              && (r.result.value <==> o.status != newStatus || o.updatedAt != now)
              && r.store.users == s.users && r.store.reviews == s.reviews
              && r.store.favorites == s.favorites
              && r.store.products.Keys == s.products.Keys
              // Stock comes back exactly on cancellation, and on nothing else.
              && (newStatus == "Cancelled" ==>
                    forall p :: p in s.products ==>
                      && SameButStock(r.store.products[p], s.products[p])
                      && StockOf(r.store, p) == StockOf(s, p) + QtyOf(o.items, p))
              && (newStatus != "Cancelled" ==> r.store.products == s.products)
  {
    if !OrderStatus.IsValidStatus(newStatus) then Step(Err(InvalidStatus), s)
    else if orderId !in s.orders then Step(Err(OrderNotFound), s)
    else
      var o := s.orders[orderId];
      if !isAdmin && o.userId != userId then Step(Err(NotAuthorized), s)
      else if !OrderStatus.IsValidStatusTransition(o.status, newStatus) then
        Step(Err(IllegalTransition(o.status, newStatus)), s)
      else
        var products :=
          if newStatus == "Cancelled" && (o.status == "Pending" || o.status == "Processing")
          then AdjustStock(s.products, o.items, true)
          else s.products;
        var updated := o.(status := newStatus, updatedAt := now);
        Step(Ok(updated != o), s.(products := products, orders := s.orders[orderId := updated]))
  }

  // ---------------------------------------------------------------------------
  // Deletion

  /** `DeleteOrder(orderId, userId, isAdmin)`: existence, then ownership (or admin),
      then the order must still be Pending; the stock of every line is given back and
      the order removed. */
  function DeleteOrder(s: Store, orderId: Id, userId: Id, isAdmin: bool)
    : (r: Step<Result<bool, OrderError>>)
    ensures r.result.Err? ==> r.store == s
    ensures r.result.Ok? <==>
              orderId in s.orders && (isAdmin || s.orders[orderId].userId == userId)
              && s.orders[orderId].status == "Pending"
    ensures r.result == Err(OrderNotFound) <==> orderId !in s.orders
    ensures r.result == Err(NotAuthorized) <==>
              orderId in s.orders && !isAdmin && s.orders[orderId].userId != userId
    ensures r.result == Err(NotPending) <==>
              orderId in s.orders && (isAdmin || s.orders[orderId].userId == userId)
              && s.orders[orderId].status != "Pending"
    ensures r.result.Ok? ==>
              var o := s.orders[orderId];
              && r.result.value
              && r.store.orders == s.orders - {orderId}
              && r.store.products.Keys == s.products.Keys
              && (forall p :: p in s.products ==>
                    && SameButStock(r.store.products[p], s.products[p])
                    && StockOf(r.store, p) == StockOf(s, p) + QtyOf(o.items, p))
              && r.store.users == s.users && r.store.reviews == s.reviews
              && r.store.favorites == s.favorites
  {
    if orderId !in s.orders then Step(Err(OrderNotFound), s)
    else
      var o := s.orders[orderId];
      if !isAdmin && o.userId != userId then Step(Err(NotAuthorized), s)
      else if o.status != "Pending" then Step(Err(NotPending), s)
      else
        Step(Ok(true), s.(products := AdjustStock(s.products, o.items, true),
                          orders := s.orders - {orderId}))
  }

  /** The unchecked `DeleteOrder(id)` overload: removes the order if present, with no
      ownership or status check and no stock release. */
  function DeleteOrderUnchecked(s: Store, orderId: Id): (r: Step<bool>)
    ensures r.result <==> orderId in s.orders
    ensures r.store == s.(orders := s.orders - {orderId})
    ensures orderId !in r.store.orders
  {
    Step(orderId in s.orders, s.(orders := s.orders - {orderId}))
  }
}

=== FILE: pagination.dfy ===
/** Paging for the list queries: clamping of the requested page (`PaginationParams`),
    the skip/limit window over the matching documents, and the page metadata
    (`CreatePaginatedResponse`). */
module Pagination {

  const DefaultPageSize: int := 10
  const MaxPageSize: int := 50

  /** The page a client asks for, as bound from the query string. */
  datatype PageRequest = PageRequest(pageNumber: int, pageSize: int)

  datatype PaginatedResponse<T> = PaginatedResponse(
    items: seq<T>,
    totalItems: int,
    pageNumber: int,
    pageSize: int,
    totalPages: int,
    hasNextPage: bool,
    hasPreviousPage: bool)

  /** `GetValidatedValues`: a page number below 1 becomes 1; a page size below 1
      becomes 10 and one above 50 becomes 50. */
  function GetValidatedValues(req: PageRequest): (r: (int, int))
    ensures req.pageNumber < 1 ==> r.0 == 1
    ensures req.pageNumber >= 1 ==> r.0 == req.pageNumber
    ensures 1 <= r.1 <= MaxPageSize
    ensures req.pageSize < 1 ==> r.1 == DefaultPageSize
    ensures req.pageSize > MaxPageSize ==> r.1 == MaxPageSize
    ensures 1 <= req.pageSize <= MaxPageSize ==> r.1 == req.pageSize
  {
    var pageNumber := if req.pageNumber < 1 then 1 else req.pageNumber;
    var pageSize :=
      if req.pageSize < 1 then DefaultPageSize
      else if req.pageSize > MaxPageSize then MaxPageSize
      else req.pageSize;
    (pageNumber, pageSize)
  }

  /** Validation changes a request exactly when the request is out of range, and so
      validating twice is validating once. */
  lemma ValidatedValuesFixpoint(req: PageRequest)
    ensures GetValidatedValues(req) == (req.pageNumber, req.pageSize)
        <==> req.pageNumber >= 1 && 1 <= req.pageSize <= MaxPageSize
    ensures var v := GetValidatedValues(req);
            GetValidatedValues(PageRequest(v.0, v.1)) == v
  {
  }

  /** The number of documents the pages before page `pageNumber` hold. */
  function Skip(pageNumber: int, pageSize: int): (n: nat)
    requires pageNumber >= 1 && pageSize >= 1
  {
    (pageNumber - 1) * pageSize
  }

  /** `Skip((pageNumber - 1) * pageSize).Limit(pageSize)` over the matching documents
      in the store's order. */
  function Window<T>(all: seq<T>, pageNumber: int, pageSize: int): (r: seq<T>)
    requires pageNumber >= 1 && pageSize >= 1
    ensures |r| <= pageSize
    ensures Skip(pageNumber, pageSize) >= |all| ==> r == []
    ensures Skip(pageNumber, pageSize) < |all| ==>
              |r| == if |all| - Skip(pageNumber, pageSize) < pageSize
                     then |all| - Skip(pageNumber, pageSize) else pageSize
    ensures forall i :: 0 <= i < |r| ==>
              Skip(pageNumber, pageSize) + i < |all| && r[i] == all[Skip(pageNumber, pageSize) + i]
  {
    var skip := Skip(pageNumber, pageSize);
    if skip >= |all| then []
    else if |all| - skip < pageSize then all[skip..]
    else all[skip..skip + pageSize]
  }

  /** Number of pages of size `pageSize` needed for `n` items. */
  function PageCount(n: nat, pageSize: int): (t: nat)
    requires pageSize >= 1
    ensures (t - 1) * pageSize < n <= t * pageSize
  {
    var t := (n + pageSize - 1) / pageSize;
    assert n + pageSize - 1 == pageSize * t + (n + pageSize - 1) % pageSize;
    t
  }

  /** Whether there are items beyond page `pageNumber`, in exact arithmetic. */
  predicate HasNextPage(pageNumber: int, pageSize: int, totalItems: int)
  {
    pageNumber * pageSize < totalItems
  }

  /** `CreatePaginatedResponse`: the page's items, the echoed (validated) page number
      and size, the page count, and whether there is a page before and after. */
  function CreatePaginatedResponse<T>(items: seq<T>, totalItems: nat, pageNumber: int, pageSize: int)
    : (r: PaginatedResponse<T>)
    requires pageSize >= 1
    ensures r.items == items && r.totalItems == totalItems
    ensures r.pageNumber == pageNumber && r.pageSize == pageSize
    ensures r.totalPages >= 0 && (r.totalPages - 1) * pageSize < totalItems <= r.totalPages * pageSize
    ensures r.hasNextPage <==> pageNumber * pageSize < totalItems
    ensures r.hasPreviousPage <==> pageNumber > 1
  {
    PaginatedResponse(items, totalItems, pageNumber, pageSize,
                      PageCount(totalItems, pageSize),
                      HasNextPage(pageNumber, pageSize, totalItems),
                      pageNumber > 1)
  }

  /** A list query: validate the request, cut the window, describe the page. */
  function Page<T>(matching: seq<T>, req: PageRequest): (r: PaginatedResponse<T>)
    ensures (r.pageNumber, r.pageSize) == GetValidatedValues(req)
    ensures r.totalItems == |matching|
    ensures r.items == Window(matching, r.pageNumber, r.pageSize)
  {
    var (pageNumber, pageSize) := GetValidatedValues(req);
    CreatePaginatedResponse(Window(matching, pageNumber, pageSize), |matching|, pageNumber, pageSize)
  }

  /** The next-page flag of a page is true exactly when the next page is not empty. */
  lemma HasNextPageIffNextWindowNonEmpty<T>(matching: seq<T>, req: PageRequest)
    ensures var r := Page(matching, req);
            r.hasNextPage <==> Window(matching, r.pageNumber + 1, r.pageSize) != []
  {
  }

  /** Pages 1..k, concatenated. */
  function FirstPages<T>(all: seq<T>, pageSize: int, k: nat): seq<T>
    requires pageSize >= 1
  {
    if k == 0 then [] else FirstPages(all, pageSize, k - 1) + Window(all, k, pageSize)
  }

  /** How many items the first k pages hold. */
  function PrefixLength(n: nat, pageSize: int, k: nat): nat
    requires pageSize >= 1
  {
    if k * pageSize <= n then k * pageSize else n
  }

  /** Page k is what follows the first k - 1 pages, up to the first k pages. */
  lemma WindowExtendsPrefix<T>(all: seq<T>, pageSize: int, k: nat)
    requires pageSize >= 1 && k >= 1
    ensures all[..PrefixLength(|all|, pageSize, k - 1)] + Window(all, k, pageSize)
         == all[..PrefixLength(|all|, pageSize, k)]
  {
    var lo := Skip(k, pageSize);
    var hi := k * pageSize;
    assert hi == lo + pageSize;
    assert PrefixLength(|all|, pageSize, k - 1) == if lo <= |all| then lo else |all|;
    var w := Window(all, k, pageSize);
    if lo >= |all| {
      assert w == [];
    } else if hi <= |all| {
      assert w == all[lo..hi];
      assert all[..lo] + all[lo..hi] == all[..hi];
    } else {
      assert w == all[lo..];
      assert all[..lo] + all[lo..] == all[..|all|];
    }
  }

  /** The first k pages are the first k * pageSize items (or all of them). */
  lemma {:induction false} FirstPagesArePrefix<T>(all: seq<T>, pageSize: int, k: nat)
    requires pageSize >= 1
    ensures FirstPages(all, pageSize, k) == all[..PrefixLength(|all|, pageSize, k)]
  {
    if k > 0 {
      FirstPagesArePrefix(all, pageSize, k - 1);
      WindowExtendsPrefix(all, pageSize, k);
    }
  }

  /** Walking the pages 1..totalPages returns every matching item, once, in order. */
  lemma PagesCoverAll<T>(all: seq<T>, pageSize: int)
    requires pageSize >= 1
    ensures FirstPages(all, pageSize, PageCount(|all|, pageSize)) == all
  {
    FirstPagesArePrefix(all, pageSize, PageCount(|all|, pageSize));
    assert all[..|all|] == all;
  }

  // ---------------------------------------------------------------------------
  // The next-page flag as written

  /** Reduction of an integer to C#'s 32-bit `int` range, as unchecked arithmetic does. */
  function Wrap32(x: int): (r: int)
    ensures -0x8000_0000 <= r < 0x8000_0000
    ensures (x - r) % 0x1_0000_0000 == 0
    ensures -0x8000_0000 <= x < 0x8000_0000 ==> r == x
  {
    (x + 0x8000_0000) % 0x1_0000_0000 - 0x8000_0000
  }

  /** C#'s unchecked 32-bit `int` multiplication. */
  function MulInt32(a: int, b: int): int
  {
    Wrap32(a * b)
  }

  /** `HasNextPage = pageNumber * pageSize < totalItems`, as the source computes it:
      both operands are `int`, so the product wraps before the comparison with the
      `long` count. It agrees with the exact flag whenever the product fits. */
  function HasNextPageAsWritten(pageNumber: int, pageSize: int, totalItems: int): (b: bool)
    ensures -0x8000_0000 <= pageNumber * pageSize < 0x8000_0000 ==>
              (b <==> HasNextPage(pageNumber, pageSize, totalItems))
  {
    MulInt32(pageNumber, pageSize) < totalItems
  }

  /** A validated request for page 42949673 of size 50 over a single item. The query's
      own skip, 42949672 * 50 = 2147483600, still fits in an `int`, so the query runs
      and returns an empty page; but the flag's product 2147483650 wraps to
      -2147483646, so the response claims there is a next page. */
  lemma HasNextPageWrapsAround()
    ensures GetValidatedValues(PageRequest(42949673, 50)) == (42949673, 50)
    ensures 0 <= Skip(42949673, 50) < 0x8000_0000
    ensures Window([0], 42949673, 50) == []
    ensures MulInt32(42949673, 50) == -2147483646
    ensures HasNextPageAsWritten(42949673, 50, 1)
    ensures !HasNextPage(42949673, 50, 1)
  {
  }
}

=== FILE: reviews.dfy ===
/** `ReviewService`: creating, editing and deleting reviews, with at most one review
    per (user, product), owner-only edits and deletes, ratings 1..5, and the product's
    review count refreshed after each change. The average rating is not modelled. */
module Reviews {
  import opened Common
  import opened Models

  /** The review a client submits. Its `UserId` and `Id` are not trusted. */
  datatype ReviewDraft = ReviewDraft(
    id: Option<Id>,
    userId: string,
    productId: string,
    rating: int,
    comment: string,
    images: seq<string>)

  datatype ReviewError =
    | ReviewNull
    | UserIdRequired
    | ProductIdRequired
    | CommentRequired
    | UserNotFound
    | ProductNotFound
    | RatingOutOfRange
    | AlreadyReviewed
    | CreationFailed
    | ReviewNotFound
    | NotOwner
    | UpdateFailed

  const MinRating: int := 1
  const MaxRating: int := 5

  predicate RatingInRange(rating: int)
  {
    MinRating <= rating <= MaxRating
  }

  /** The ids of the reviews of one product. */
  function ReviewsOf(reviews: map<Id, Review>, pid: Id): set<Id>
  {
    set k | k in reviews && reviews[k].productId == pid
  }

  /** Whether `userId` has reviewed `pid` already. */
  predicate HasReviewed(reviews: map<Id, Review>, userId: Id, pid: Id)
  {
    exists k :: k in reviews && reviews[k].userId == userId && reviews[k].productId == pid
  }

  /** At most one review per (user, product). */
  predicate UniqueReviews(reviews: map<Id, Review>)
  {
    forall a, b :: a in reviews && b in reviews && a != b ==>
      (reviews[a].userId, reviews[a].productId) != (reviews[b].userId, reviews[b].productId)
  }

  /** The count part of `UpdateProductRating`: when the product has reviews, its
      `ReviewCount` becomes their number; when it has none, nothing is written. */
  function RefreshReviewCount(s: Store, pid: Id): (r: Store)
    ensures r.products.Keys == s.products.Keys
    ensures r.users == s.users && r.orders == s.orders
    ensures r.reviews == s.reviews && r.favorites == s.favorites
    ensures forall k :: k in s.products && k != pid ==> r.products[k] == s.products[k]
    ensures pid in s.products ==>
              r.products[pid] == s.products[pid].(reviewCount :=
                if |ReviewsOf(s.reviews, pid)| > 0 then |ReviewsOf(s.reviews, pid)|
                else s.products[pid].reviewCount)
  {
    var n := |ReviewsOf(s.reviews, pid)|;
    if n > 0 && pid in s.products
    then s.(products := s.products[pid := s.products[pid].(reviewCount := n)])
    else s
  }

  /** Adding a review of a product adds one to that product's reviews. */
  lemma ReviewsOfAfterInsert(reviews: map<Id, Review>, k: Id, rv: Review)
    requires k !in reviews
    ensures ReviewsOf(reviews[k := rv], rv.productId) == ReviewsOf(reviews, rv.productId) + {k}
    ensures |ReviewsOf(reviews[k := rv], rv.productId)| == |ReviewsOf(reviews, rv.productId)| + 1
  {
    assert ReviewsOf(reviews[k := rv], rv.productId) == ReviewsOf(reviews, rv.productId) + {k};
  }

  /** Removing a review of a product takes it out of that product's reviews. */
  lemma ReviewsOfAfterRemove(reviews: map<Id, Review>, k: Id)
    requires k in reviews
    ensures ReviewsOf(reviews - {k}, reviews[k].productId) == ReviewsOf(reviews, reviews[k].productId) - {k}
    ensures |ReviewsOf(reviews - {k}, reviews[k].productId)| == |ReviewsOf(reviews, reviews[k].productId)| - 1
  {
    assert ReviewsOf(reviews - {k}, reviews[k].productId) == ReviewsOf(reviews, reviews[k].productId) - {k};
  }

  /** The three non-blank fields `CreateReview` checks first. */
  predicate FieldsGiven(d: ReviewDraft, userId: string)
  {
    !IsBlank(userId) && !IsBlank(d.productId) && !IsBlank(d.comment)
  }

  /** `CreateReview`: null input, blank caller id, blank product id, blank comment,
      unknown user, unknown product, rating out of range, existing review; then the
      review is stored under a fresh store-generated id with the caller as its author,
      and the product's review count refreshed. */
  function CreateReview(s: Store, review: Option<ReviewDraft>, userId: string, generated: Id, now: Time)
    : (r: Step<Result<Review, ReviewError>>)
    ensures r.result.Err? ==> r.store == s
    ensures r.result.Ok? <==>
              && review.Some?
              && !IsBlank(userId) && !IsBlank(review.value.productId) && !IsBlank(review.value.comment)
              && userId in s.users && review.value.productId in s.products
              && RatingInRange(review.value.rating)
              && !HasReviewed(s.reviews, userId, review.value.productId)
              && generated !in s.reviews
    ensures r.result == Err(ReviewNull) <==> review.None?
    ensures r.result == Err(UserIdRequired) <==> review.Some? && IsBlank(userId)
    ensures r.result == Err(ProductIdRequired) <==>
              review.Some? && !IsBlank(userId) && IsBlank(review.value.productId)
    ensures r.result == Err(CommentRequired) <==>
              review.Some? && !IsBlank(userId) && !IsBlank(review.value.productId)
              && IsBlank(review.value.comment)
    ensures r.result == Err(UserNotFound) <==>
              && review.Some? && FieldsGiven(review.value, userId)
              && userId !in s.users
    ensures r.result == Err(ProductNotFound) <==>
              && review.Some? && FieldsGiven(review.value, userId)
              && userId in s.users && review.value.productId !in s.products
    ensures r.result == Err(RatingOutOfRange) <==>
              && review.Some? && FieldsGiven(review.value, userId)
              && userId in s.users && review.value.productId in s.products
              && !RatingInRange(review.value.rating)
    ensures r.result == Err(AlreadyReviewed) <==>
              && review.Some? && FieldsGiven(review.value, userId)
              && userId in s.users && review.value.productId in s.products
              && RatingInRange(review.value.rating)
              && HasReviewed(s.reviews, userId, review.value.productId)
    ensures r.result == Err(CreationFailed) <==>
              && review.Some? && FieldsGiven(review.value, userId)
              && userId in s.users && review.value.productId in s.products
              && RatingInRange(review.value.rating)
              && !HasReviewed(s.reviews, userId, review.value.productId)
              && generated in s.reviews
    ensures r.result.Ok? ==>
              var rv := r.result.value;
              && review.Some?
              && rv.id == generated && rv.userId == userId
              && rv.productId == review.value.productId && rv.rating == review.value.rating
              && rv.comment == review.value.comment && rv.images == review.value.images
              && rv.createdAt == now && rv.updatedAt == now
              && r.store.reviews == s.reviews[generated := rv]
              && rv.productId in r.store.products
              && r.store.products[rv.productId].reviewCount == |ReviewsOf(s.reviews, rv.productId)| + 1
              && r.store == RefreshReviewCount(s.(reviews := r.store.reviews), rv.productId)
  {
    if review.None? then Step(Err(ReviewNull), s)
    else
      var d := review.value;
      if IsBlank(userId) then Step(Err(UserIdRequired), s)
      else if IsBlank(d.productId) then Step(Err(ProductIdRequired), s)
      else if IsBlank(d.comment) then Step(Err(CommentRequired), s)
      else if userId !in s.users then Step(Err(UserNotFound), s)
      else if d.productId !in s.products then Step(Err(ProductNotFound), s)
      else if d.rating < MinRating || d.rating > MaxRating then Step(Err(RatingOutOfRange), s)
      else if exists k | k in s.reviews :: s.reviews[k].userId == userId && s.reviews[k].productId == d.productId
      then Step(Err(AlreadyReviewed), s)
      else if generated in s.reviews then Step(Err(CreationFailed), s)
      else
        var rv := Review(generated, userId, d.productId, d.rating, d.comment, d.images, now, now);
        ReviewsOfAfterInsert(s.reviews, generated, rv);
        Step(Ok(rv), RefreshReviewCount(s.(reviews := s.reviews[generated := rv]), d.productId))
  }

  /** Creation never produces a second review of a product by the same user. */
  lemma CreateReviewKeepsUnique(s: Store, review: Option<ReviewDraft>, userId: string, generated: Id, now: Time)
    requires UniqueReviews(s.reviews)
    ensures UniqueReviews(CreateReview(s, review, userId, generated, now).store.reviews)
  {
  }

  /** `UpdateReview`: not found, then not the author, then rating out of range. The
      stored review is replaced by the submitted one, except that its id, author,
      product and creation time are kept. Succeeds iff the replacement changed the
      document. */
  function UpdateReview(s: Store, id: Id, updated: ReviewDraft, userId: Id, now: Time)
    : (r: Step<Result<bool, ReviewError>>)
    ensures r.result.Err? ==> r.store == s
    ensures r.result == Err(ReviewNotFound) <==> id !in s.reviews
    ensures r.result == Err(NotOwner) <==> id in s.reviews && s.reviews[id].userId != userId
    ensures r.result == Err(RatingOutOfRange) <==>
              id in s.reviews && s.reviews[id].userId == userId && !RatingInRange(updated.rating)
    ensures r.result.Ok? <==>
              && id in s.reviews && s.reviews[id].userId == userId && RatingInRange(updated.rating)
              && s.reviews[id] != s.reviews[id].(id := id, rating := updated.rating,
                                                  comment := updated.comment,
                                                  images := updated.images, updatedAt := now)
    // On success every other collection is untouched and the product's count refreshed.
    ensures r.result.Ok? ==>
              r.store == RefreshReviewCount(s.(reviews := r.store.reviews), s.reviews[id].productId)
    ensures r.result.Ok? ==>
              && id in s.reviews && id in r.store.reviews && r.result.value
              && var prior := s.reviews[id];
                 var rv := r.store.reviews[id];
                 && r.store.reviews == s.reviews[id := rv]
                 && rv.id == id && rv.userId == prior.userId
                 && rv.productId == prior.productId && rv.createdAt == prior.createdAt
                 && rv.rating == updated.rating && rv.comment == updated.comment
                 && rv.images == updated.images && rv.updatedAt == now
                 && rv != prior
    ensures r.result == Err(UpdateFailed) <==>
              id in s.reviews && s.reviews[id].userId == userId && RatingInRange(updated.rating)
              && s.reviews[id] == s.reviews[id].(id := id, rating := updated.rating,
                                                  comment := updated.comment,
                                                  images := updated.images, updatedAt := now)
  {
    if id !in s.reviews then Step(Err(ReviewNotFound), s)
    else
      var existing := s.reviews[id];
      if existing.userId != userId then Step(Err(NotOwner), s)
      else if updated.rating < MinRating || updated.rating > MaxRating then Step(Err(RatingOutOfRange), s)
      else
        var rv := Review(id, userId, existing.productId, updated.rating, updated.comment,
                         updated.images, existing.createdAt, now);
        if rv == existing then Step(Err(UpdateFailed), s)
        else Step(Ok(true), RefreshReviewCount(s.(reviews := s.reviews[id := rv]), rv.productId))
  }

  /** An edit keeps every review's author and product, so uniqueness survives it. */
  lemma UpdateReviewKeepsUnique(s: Store, id: Id, updated: ReviewDraft, userId: Id, now: Time)
    requires UniqueReviews(s.reviews)
    ensures UniqueReviews(UpdateReview(s, id, updated, userId, now).store.reviews)
  {
  }

  /** `DeleteReview`: not found, then not the author; the review is removed and the
      product's review count refreshed. */
  function DeleteReview(s: Store, id: Id, userId: Id): (r: Step<Result<bool, ReviewError>>)
    ensures r.result.Err? ==> r.store == s
    ensures r.result == Err(ReviewNotFound) <==> id !in s.reviews
    ensures r.result == Err(NotOwner) <==> id in s.reviews && s.reviews[id].userId != userId
    ensures r.result.Ok? <==> id in s.reviews && s.reviews[id].userId == userId
    ensures r.result.Ok? ==>
              && r.result.value
              && r.store == RefreshReviewCount(s.(reviews := s.reviews - {id}), s.reviews[id].productId)
  {
    if id !in s.reviews then Step(Err(ReviewNotFound), s)
    else
      var rv := s.reviews[id];
      if rv.userId != userId then Step(Err(NotOwner), s)
      else Step(Ok(true), RefreshReviewCount(s.(reviews := s.reviews - {id}), rv.productId))
  }

  /** After a deletion the product's review count is the number of its remaining
      reviews, except when none remain: then the count written before is left as is. */
  lemma DeleteReviewCount(s: Store, id: Id, userId: Id)
    requires id in s.reviews && s.reviews[id].userId == userId
    requires s.reviews[id].productId in s.products
    ensures var pid := s.reviews[id].productId;
            var after := DeleteReview(s, id, userId).store;
            && pid in after.products
            && (|ReviewsOf(s.reviews, pid)| > 1 ==>
                  after.products[pid].reviewCount == |ReviewsOf(s.reviews, pid)| - 1)
            && (|ReviewsOf(s.reviews, pid)| == 1 ==>
                  after.products[pid] == s.products[pid])
  {
    ReviewsOfAfterRemove(s.reviews, id);
  }
}

=== FILE: scenarios.dfy ===
/** Worked examples of the order operations on a one-product catalog. */
module OrderScenarios {
  import opened Common
  import opened Models
  import opened Stock
  import opened Orders

  const Address := ShippingAddress("1 Main St", "Springfield", "IL", "62701", "US")

  function Catalog(stock: int): map<Id, Product>
  {
    map["p1" := Product("p1", "Bamboo brush", "Home", 10.0, stock, true, 0)]
  }

  function Shop(stock: int): Store
  {
    Store(map["u1" := User(Some("u1"), "a@b.c", "h", "Ann", Some("user"), 0, None),
              "admin" := User(Some("admin"), "x@y.z", "h", "Root", Some("admin"), 0, None)],
          Catalog(stock), map[], map[], map[])
  }

  function Draft(items: seq<OrderItem>): OrderDraft
  {
    OrderDraft(None, "u1", Some(items), Some(Address), 0.0, "Shipped", 0)
  }

  lemma NotBlank(s: string)
    requires |s| > 0 && !IsWhiteSpace(s[0])
    ensures !IsBlank(s)
  {
  }

  /** Two units at 10.00 from a stock of 5: total 20.00, Pending, stock 3. */
  lemma CreateTwoOfFive()
    ensures var r := CreateOrder(Shop(5), Some(Draft([OrderItem("p1", 2)])), "o1", 100);
            && r.result.Ok?
            && r.result.value.totalAmount == 20.0
            && r.result.value.status == "Pending"
            && StockOf(r.store, "p1") == 3
  {
    var items := [OrderItem("p1", 2)];
    NotBlank("u1");
    NotBlank("p1");
    assert ItemAdmissible(items[0], Catalog(5));
    assert OrderTotal(items, Catalog(5)) == 20.0 by {
      assert items[1..] == [];
    }
    assert QtyOf(items, "p1") == 2 by {
      assert items[1..] == [];
    }
  }

  /** Two units from a stock of 1: refused naming the product, the available and the
      requested quantity; the stock stays at 1. */
  lemma CreateTwoOfOne()
    ensures var r := CreateOrder(Shop(1), Some(Draft([OrderItem("p1", 2)])), "o1", 100);
            && r.result == Err(InsufficientStock("p1", 1, 2))
            && StockOf(r.store, "p1") == 1
  {
    var items := [OrderItem("p1", 2)];
    NotBlank("u1");
    NotBlank("p1");
    assert ValidateFrom(items, Catalog(1), 0, 0.0) == Err(InsufficientStock("p1", 1, 2));
  }

  /** Each line is checked against the stock as it was before the order, so two lines
      of one unit each pass against a stock of 1, and the stock ends at -1. */
  lemma DuplicateLinesOverdraw()
    ensures var r := CreateOrder(Shop(1), Some(Draft([OrderItem("p1", 1), OrderItem("p1", 1)])), "o1", 100);
            r.result.Ok? && StockOf(r.store, "p1") == -1
  {
    var items := [OrderItem("p1", 1), OrderItem("p1", 1)];
    NotBlank("u1");
    NotBlank("p1");
    assert ItemAdmissible(items[0], Catalog(1)) && ItemAdmissible(items[1], Catalog(1));
    assert QtyOf(items, "p1") == 2 by {
      assert items[1..][1..] == [];
    }
  }

  function ProcessingOrder(): Order
  {
    Order("o1", "u1", [OrderItem("p1", 2)], Address, 20.0, "Processing", 1, 1)
  }

  /** A Processing order: another non-admin user may not ship it; an admin may, and
      the update time advances. */
  lemma ShipAsStrangerAndAsAdmin()
    ensures var s := Shop(3).(orders := map["o1" := ProcessingOrder()]);
            && UpdateOrderStatus(s, "o1", "Shipped", "u2", false, 5).result == Err(NotAuthorized)
            && var r := UpdateOrderStatus(s, "o1", "Shipped", "admin", true, 5);
               r.result == Ok(true) && r.store.orders["o1"].updatedAt == 5
               && r.store.orders["o1"].status == "Shipped"
  {
    assert OrderStatus.IsValidStatus("Shipped") by {
      assert OrderStatus.EqualsIgnoreCase(OrderStatus.Name(OrderStatus.Shipped), "Shipped");
    }
  }

  /** A Shipped order can never go back to Pending, whoever asks. */
  lemma ShippedNeverBackToPending(userId: Id, isAdmin: bool)
    ensures var s := Shop(3).(orders := map["o1" := ProcessingOrder().(status := "Shipped")]);
            var r := UpdateOrderStatus(s, "o1", "Pending", userId, isAdmin, 5);
            r.result.Err? && r.store == s
  {
  }
}

=== FILE: status.dfy ===
/** The order status machine of `Order.StatusValidation`: which of the six status
    names are recognised (case-insensitively) and which (current, new) pairs of names
    are an allowed transition (case-sensitively). */
module OrderStatus {
  import opened Common

  /** The six statuses, as a closed type. */
  datatype Status = Pending | Processing | Shipped | Delivered | Cancelled | Refunded

  /** The exact name under which a status is stored in an order document. */
  function Name(st: Status): string
  {
    match st
    case Pending => "Pending"
    case Processing => "Processing"
    case Shipped => "Shipped"
    case Delivered => "Delivered"
    case Cancelled => "Cancelled"
    case Refunded => "Refunded"
  }

  /** Reads a stored status name back, comparing exact case. */
  function Parse(s: string): (r: Option<Status>)
    ensures forall st :: r == Some(st) <==> Name(st) == s
  {
    if s == "Pending" then Some(Pending)
    else if s == "Processing" then Some(Processing)
    else if s == "Shipped" then Some(Shipped)
    else if s == "Delivered" then Some(Delivered)
    else if s == "Cancelled" then Some(Cancelled)
    else if s == "Refunded" then Some(Refunded)
    else None
  }

  /** The list the error message of an invalid status enumerates, in its order. */
  const ValidStatuses: seq<string> :=
    ["Pending", "Processing", "Shipped", "Delivered", "Cancelled", "Refunded"]

  /** `StringComparer.OrdinalIgnoreCase` on one character, for ASCII letters. */
  function FoldCase(c: char): char
  {
    if 'a' <= c <= 'z' then (c as int - 32) as char else c
  }

  /** Ordinal case-insensitive string equality. */
  predicate EqualsIgnoreCase(a: string, b: string)
  {
    |a| == |b| && forall i :: 0 <= i < |a| ==> FoldCase(a[i]) == FoldCase(b[i])
  }

  /** `names.Contains(s, StringComparer.OrdinalIgnoreCase)`, scanning left to right. */
  function ContainsIgnoreCase(names: seq<string>, s: string): (r: bool)
    ensures r <==> exists i :: 0 <= i < |names| && EqualsIgnoreCase(names[i], s)
  {
    if names == [] then false
    else if EqualsIgnoreCase(names[0], s) then true
    else
      assert forall i :: 1 <= i < |names| ==> names[i] == names[1..][i - 1];
      ContainsIgnoreCase(names[1..], s)
  }

  /** A status name is valid iff it is one of the six names, ignoring case. */
  function IsValidStatus(s: string): (r: bool)
    ensures r <==> exists st :: EqualsIgnoreCase(Name(st), s)
  {
    ValidStatusesAreNames(s);
    ContainsIgnoreCase(ValidStatuses, s)
  }

  /** Matching some entry of `ValidStatuses` is matching the name of some status. */
  lemma ValidStatusesAreNames(s: string)
    ensures (exists i :: 0 <= i < |ValidStatuses| && EqualsIgnoreCase(ValidStatuses[i], s))
        <==> exists st :: EqualsIgnoreCase(Name(st), s)
  {
    if i :| 0 <= i < |ValidStatuses| && EqualsIgnoreCase(ValidStatuses[i], s) {
      var st := [Pending, Processing, Shipped, Delivered, Cancelled, Refunded][i];
      assert Name(st) == ValidStatuses[i];
    }
    if st :| EqualsIgnoreCase(Name(st), s) {
      assert EqualsIgnoreCase(ValidStatuses[Index(st)], s);
    }
  }

  /** Position of a status in `ValidStatuses`. */
  function Index(st: Status): (i: nat)
    ensures i < |ValidStatuses| && ValidStatuses[i] == Name(st)
  {
    match st
    case Pending => 0
    case Processing => 1
    case Shipped => 2
    case Delivered => 3
    case Cancelled => 4
    case Refunded => 5
  }

  /** The allowed-transition check as the source writes it: keyed by the NEW status,
      naming the current statuses that may lead to it; both compared by exact case. */
  function IsValidStatusTransition(current: string, next: string): (r: bool)
    // Cancelled and Refunded are terminal.
    ensures r ==> current != "Cancelled" && current != "Refunded"
    // Only Pending may move (stay) to Pending.
    ensures next == "Pending" ==> (r <==> current == "Pending")
    // Only the six exact names take part in a transition.
    ensures r ==> Parse(current).Some? && Parse(next).Some?
  {
    if next == "Pending" then current == "Pending"
    else if next == "Processing" then current == "Pending"
    else if next == "Shipped" then current == "Processing"
    else if next == "Delivered" then current == "Shipped"
    else if next == "Cancelled" then current == "Pending" || current == "Processing"
    else if next == "Refunded" then current == "Delivered" || current == "Shipped"
    else false
  }

  /** The transition table read forwards: for each current status, the statuses it
      may move to. An independent statement of the same state machine. */
  function AllowedNext(st: Status): set<Status>
  {
    match st
    case Pending => {Pending, Processing, Cancelled}
    case Processing => {Shipped, Cancelled}
    case Shipped => {Delivered, Refunded}
    case Delivered => {Refunded}
    case Cancelled => {}
    case Refunded => {}
  }

  /** The source's check agrees with the forward table on every pair of strings. */
  lemma TransitionMatchesTable(current: string, next: string)
    ensures IsValidStatusTransition(current, next)
        <==> Parse(current).Some? && Parse(next).Some?
             && Parse(next).value in AllowedNext(Parse(current).value)
  {
  }

  /** Every status, once. */
  const AllStatuses: set<Status> :=
    {Pending, Processing, Shipped, Delivered, Cancelled, Refunded}

  /** The pairs of statuses whose names the check accepts. */
  function TransitionPairs(): set<(Status, Status)>
  {
    set a, b | a in AllStatuses && b in AllStatuses
               && IsValidStatusTransition(Name(a), Name(b)) :: (a, b)
  }

  /** On the names of two statuses, the source's check is the forward table. */
  lemma NamesFollowTable(a: Status, b: Status)
    ensures IsValidStatusTransition(Name(a), Name(b)) <==> b in AllowedNext(a)
  {
    TransitionMatchesTable(Name(a), Name(b));
  }

  /** The eight pairs the transition table lists. */
  const TablePairs: set<(Status, Status)> := {
    (Pending, Pending), (Pending, Processing), (Processing, Shipped),
    (Shipped, Delivered), (Pending, Cancelled), (Processing, Cancelled),
    (Shipped, Refunded), (Delivered, Refunded)
  }

  /** The pairs the check accepts are exactly the table's pairs. */
  lemma TransitionPairsAreTable()
    ensures TransitionPairs() == TablePairs
  {
    forall a, b | a in AllStatuses && b in AllStatuses
      ensures IsValidStatusTransition(Name(a), Name(b)) <==> (a, b) in TablePairs
    {
      NamesFollowTable(a, b);
    }
  }

  /** The four forward steps of an order, one per target status. */
  const ForwardPairs: set<(Status, Status)> :=
    {(Pending, Pending), (Pending, Processing), (Processing, Shipped), (Shipped, Delivered)}

  /** The four ways out to Cancelled or Refunded. */
  const ExitPairs: set<(Status, Status)> :=
    {(Pending, Cancelled), (Processing, Cancelled), (Shipped, Refunded), (Delivered, Refunded)}

  lemma ForwardPairsCount()
    ensures |ForwardPairs| == 4
  {
    var t0: set<(Status, Status)> := {(Pending, Pending)};
    var t1 := t0 + {(Pending, Processing)};
    var t2 := t1 + {(Processing, Shipped)};
    assert |t1| == 2 && |t2| == 3;
    assert ForwardPairs == t2 + {(Shipped, Delivered)};
  }

  lemma ExitPairsCount()
    ensures |ExitPairs| == 4
  {
    var t0: set<(Status, Status)> := {(Pending, Cancelled)};
    var t1 := t0 + {(Processing, Cancelled)};
    var t2 := t1 + {(Shipped, Refunded)};
    assert |t1| == 2 && |t2| == 3;
    assert ExitPairs == t2 + {(Delivered, Refunded)};
  }

  /** The table lists eight distinct pairs. */
  lemma TableHasEightPairs()
    ensures |TablePairs| == 8
  {
    ForwardPairsCount();
    ExitPairsCount();
    assert forall p :: p in ExitPairs ==> p.1 == Cancelled || p.1 == Refunded;
    assert forall p :: p in ForwardPairs ==> p.1 != Cancelled && p.1 != Refunded;
    assert ForwardPairs * ExitPairs == {};
    assert TablePairs == ForwardPairs + ExitPairs;
  }

  /** Exactly eight of the 36 ordered pairs of statuses are allowed. */
  lemma ExactlyEightTransitions()
    ensures |TransitionPairs()| == 8
  {
    TransitionPairsAreTable();
    TableHasEightPairs();
  }

  /** A name differing only in case is recognised as a status, yet no transition to
      it is ever allowed, because the transition check compares exact case. */
  lemma CaseSensitiveTransition(current: string)
    ensures IsValidStatus("cancelled")
    ensures !IsValidStatusTransition(current, "cancelled")
  {
    assert EqualsIgnoreCase(Name(Cancelled), "cancelled");
  }
}

=== FILE: stock.dfy ===
/** Stock bookkeeping: the per-line `Inc(StockQuantity, ±quantity)` updates that order
    creation applies (reservation) and cancellation and deletion apply (release). */
module Stock {
  import opened Models

  /** The total quantity the lines of an order ask of one product; duplicate lines
      for the same product add up. */
  function QtyOf(items: seq<OrderItem>, pid: Id): int
  {
    if items == [] then 0
    else (if items[0].productId == pid then items[0].quantity else 0) + QtyOf(items[1..], pid)
  }

  /** One `UpdateOne(p => p.Id == pid, Inc(StockQuantity, delta))`: a missing product
      matches no document and nothing changes. */
  function IncStock(products: map<Id, Product>, pid: Id, delta: int): (r: map<Id, Product>)
    ensures r.Keys == products.Keys
    ensures forall k :: k in r && k != pid ==> r[k] == products[k]
  {
    if pid in products
    then products[pid := products[pid].(stockQuantity := products[pid].stockQuantity + delta)]
    else products
  }

  /** The signed stock change of one line: taken on reservation, given back on release. */
  function Delta(release: bool, quantity: int): int
  {
    if release then quantity else -quantity
  }

  /** The product documents with every field but the stock equal. */
  predicate SameButStock(a: Product, b: Product)
  {
    a.(stockQuantity := 0) == b.(stockQuantity := 0)
  }

  /** One stock update per line, in line order. Every product present ends with its
      stock moved by the total quantity the lines ask of it, and nothing else about
      the catalog changes. */
  function AdjustStock(products: map<Id, Product>, items: seq<OrderItem>, release: bool)
    : (r: map<Id, Product>)
    ensures r.Keys == products.Keys
    ensures forall k :: k in r ==>
              && SameButStock(r[k], products[k])
              && r[k].stockQuantity == products[k].stockQuantity + Delta(release, QtyOf(items, k))
  {
    if items == [] then products
    else
      var head := items[0];
      AdjustStock(IncStock(products, head.productId, Delta(release, head.quantity)), items[1..], release)
  }

  /** Releasing the lines of an order undoes reserving them. */
  lemma {:induction false} ReleaseUndoesReserve(products: map<Id, Product>, items: seq<OrderItem>)
    ensures AdjustStock(AdjustStock(products, items, false), items, true) == products
  {
    var back := AdjustStock(AdjustStock(products, items, false), items, true);
    forall k | k in products
      ensures back[k] == products[k]
    {
      assert SameButStock(back[k], products[k]);
    }
  }
}
